=== FILE: README.md ===
# PhysicalGameplayObject timing and trajectory model

BeatCraft renders Beat Saber maps inside Minecraft. Each gameplay object (a
note, a bomb and so on) is rendered by a subclass of the abstract
`PhysicalGameplayObject` class, which this project models. The object flies
towards the player on a "jump" that is scheduled around its target beat:

- it approaches from 500 units ahead during a lead window of `jumpBeats`
  (0.4 s converted to beats);
- it spawns at `beat - halfDuration`, at half the jump distance;
- it cruises until the jump-out beat `beat + halfDuration/2`, by then a
  quarter of the jump distance behind the player;
- it recedes on a squared curve to 500 units behind at the despawn beat
  `beat + halfDuration`.

Meanwhile:

- the object dips vertically at the edges of its lifetime;
- it blends from a random spawn orientation to its base orientation;
- a one-bit `despawned` flag hides it once its jump has ended, until `reset`
  replays it.

This project models that logic in Dafny. Floats are modelled as reals.

| file | module | contents |
|---|---|---|
| `math_util.dfy` | `MathUtil` | The scalar helpers the object calls: `Lerp`, `InverseLerp`, `Clamp01`, `EaseOutQuad`, `SecondsToBeats`. Their sources are not part of this model, so each is defined with the behaviour stated in its doc comment. Also the real-arithmetic lemmas the proofs use. |
| `physical_object.dfy` | `PhysicalObject` | The object record and its constructor. The beat boundaries and the spawn and jump-out depths. The despawned flag with `Despawn`, `Reset`, `IsDespawned`. The visibility gate `ShouldRender`, and `JumpEnded`. |
| `trajectory.dfy` | `Trajectory` | Lifetime and spawn lifetime. The three-phase depth `JumpsZ`. The lane position `Position2D` and the dip `JumpsXY`. The combined `JumpsPosition`. The spawn-orientation choice `JumpsRotation` / `SpawnRotation`. |
| `render.dfy` | `Render` | The decision prefix of `worldRender`: the animation-time beat override, despawning once the jump has ended, and the placement of a drawn frame. Also one frame behind the visibility gate (`Tick`), and a run of frames (`Run`). |

In the source the object is mutable. Here it is an immutable record, and every
operation that changes the flag returns the updated record.

Values the source reads from global player state or from other classes are
parameters here:

- the current beat, the live tempo and the animation time;
- the jump parameters, taken from the jump computation;
- the spawn orientation, taken from the shared quaternion pool;
- the note-gravity switch.

The record's `Valid` predicate states what these values are assumed to
guarantee: a positive half duration, a positive jump distance and a positive
jump window.

Rotations are an opaque four-component record. Spherical interpolation is
kept symbolic as `Slerp(from, to, t)`: the model proves which endpoints and
which blend fraction are chosen, not the quaternion arithmetic.

The depth phases use the unclamped `InverseLerp`, which is an assumption
(see Left out). Of the inverse interpolations, only the lifetime's is clamped
(`getLifetime`, line 126); the spawn lifetime (line 130) and the rotation
progress (line 212) clamp their own scaled values. The properties of each
depth phase are therefore stated inside that phase's window.

## Model

| member | source | states |
|---|---|---|
| `MathUtil.Lerp` | src/client/java/com/beatcraft/render/PhysicalGameplayObject.java:105 | Assumed linear interpolation. Parameter 0 gives the start and 1 gives the end. A parameter in [0, 1] gives a value between the two ends. |
| `MathUtil.InverseLerp` | src/client/java/com/beatcraft/render/PhysicalGameplayObject.java:104 | Assumed unclamped inverse of `Lerp`: interpolating by the result gives back `t`. The ends map to 0 and 1. For `a < b`, `t` lies in [a, b] exactly when the result lies in [0, 1]. |
| `MathUtil.Clamp01` | src/client/java/com/beatcraft/render/PhysicalGameplayObject.java:126 | Assumed clamp to [0, 1]. Values inside are kept; values below or above go to 0 or 1. |
| `MathUtil.EaseOutQuad` | src/client/java/com/beatcraft/render/PhysicalGameplayObject.java:88 | Assumed ease-out curve. It maps [0, 1] into [0, 1], fixes 0 and 1, and is positive on (0, 1]. |
| `MathUtil.SecondsToBeats` | src/client/java/com/beatcraft/render/PhysicalGameplayObject.java:32 | Assumed conversion of seconds to beats: the result times 60 equals seconds times tempo. It is non-negative for non-negative inputs and positive for positive ones. |
| `PhysicalObject.Create` | src/client/java/com/beatcraft/render/PhysicalGameplayObject.java:27-33 | A new object is live and keeps its data, jump parameters and spawn orientation. Its base rotation is the identity. Its jump window is 0.4 s at the construction tempo, and it is positive. |
| `PhysicalObject.SpawnBeat` | src/client/java/com/beatcraft/render/PhysicalGameplayObject.java:39-41 | The target beat minus the half duration; its order against the other boundaries is stated by `BoundariesOrdered`. |
| `PhysicalObject.JumpOutBeat` | src/client/java/com/beatcraft/render/PhysicalGameplayObject.java:43-45 | The target beat plus half the half duration; see `BoundariesOrdered`. |
| `PhysicalObject.DespawnBeat` | src/client/java/com/beatcraft/render/PhysicalGameplayObject.java:47-49 | The target beat plus the half duration; see `BoundariesOrdered`. |
| `PhysicalObject.SpawnPosition` | src/client/java/com/beatcraft/render/PhysicalGameplayObject.java:51-53 | Half the jump distance; see `PositionsOppose`. |
| `PhysicalObject.JumpOutPosition` | src/client/java/com/beatcraft/render/PhysicalGameplayObject.java:55-57 | Minus a quarter of the jump distance; see `PositionsOppose`. |
| `PhysicalObject.BoundariesOrdered` | src/client/java/com/beatcraft/render/PhysicalGameplayObject.java:39-49 | For a positive half duration: spawn beat < target beat < jump-out beat < despawn beat. The target beat is the midpoint of the lifespan. Jump-out comes a quarter of the lifespan after the target beat. |
| `PhysicalObject.PositionsOppose` | src/client/java/com/beatcraft/render/PhysicalGameplayObject.java:51-57 | The spawn depth is in front of the player (positive). The jump-out depth is behind (negative) and half as far away. |
| `PhysicalObject.Despawn` | src/client/java/com/beatcraft/render/PhysicalGameplayObject.java:59-61 | Sets the flag and changes nothing else. |
| `PhysicalObject.Reset` | src/client/java/com/beatcraft/render/PhysicalGameplayObject.java:67-69 | Afterwards the object is not despawned, and nothing else has changed. |
| `PhysicalObject.IsDespawned` | src/client/java/com/beatcraft/render/PhysicalGameplayObject.java:63-65 | Reads the flag that `Despawn` sets and `Reset` clears; see their contracts and `ResetIdempotent`. |
| `PhysicalObject.ResetIdempotent` | src/client/java/com/beatcraft/render/PhysicalGameplayObject.java:59-69 | Resetting twice is resetting once. Resetting after a despawn is the same as resetting without it. |
| `PhysicalObject.ShouldRenderGate` | src/client/java/com/beatcraft/render/PhysicalGameplayObject.java:71-79 | A despawned object is never rendered. A live object is rendered exactly when the beat is at least the spawn beat minus the 0.4 s margin at the live tempo. So it is rendered from the spawn beat on. Once rendered, it stays rendered at later beats. |
| `PhysicalObject.MarginMatchesJumpIn` | src/client/java/com/beatcraft/render/PhysicalGameplayObject.java:71-79 | If the tempo is unchanged since construction, a new object becomes visible exactly when its jump window opens at `spawnBeat - jumpBeats`. |
| `PhysicalObject.ShouldRender` | src/client/java/com/beatcraft/render/PhysicalGameplayObject.java:71-79 | The visibility gate; its behaviour is stated by `ShouldRenderGate` and `MarginMatchesJumpIn`. |
| `PhysicalObject.JumpEnded` | src/client/java/com/beatcraft/render/PhysicalGameplayObject.java:220-222 | The jump is over from the despawn beat on; see `WorldRender`, `Tick` and `EndsAtFirstLateFrame`. |
| `Trajectory.Lifetime` | src/client/java/com/beatcraft/render/PhysicalGameplayObject.java:124-127 | Lies in [0, 1]. It is 0 up to the spawn beat and 1 from the despawn beat on. In between, interpolating the lifespan by it returns the time. |
| `Trajectory.LifetimeMonotone` | src/client/java/com/beatcraft/render/PhysicalGameplayObject.java:124-127 | Lifetime never decreases as time advances. |
| `Trajectory.LifetimeAtBeat` | src/client/java/com/beatcraft/render/PhysicalGameplayObject.java:124-127 | Lifetime is exactly 0.5 at the target beat. |
| `Trajectory.LifetimeStartsAtSpawn` | src/client/java/com/beatcraft/render/PhysicalGameplayObject.java:124-127 | Lifetime is positive strictly after the spawn beat. |
| `Trajectory.LifetimeBeforeBeat` | src/client/java/com/beatcraft/render/PhysicalGameplayObject.java:124-127 | Lifetime is below one half strictly before the target beat. |
| `Trajectory.SpawnLifetime` | src/client/java/com/beatcraft/render/PhysicalGameplayObject.java:129-131 | Lies in [0, 1]. It is twice the lifetime on [0, 0.5], 1 from 0.5 on, and 0 at or below 0. |
| `Trajectory.JumpsZ` | src/client/java/com/beatcraft/render/PhysicalGameplayObject.java:94-116 | The depth is 500 when the jump window opens, the spawn depth at the spawn beat, the jump-out depth at the jump-out beat, and -500 at the despawn beat. Inside each phase window the depth lies between that phase's two end depths. |
| `Trajectory.ApproachAdvances` | src/client/java/com/beatcraft/render/PhysicalGameplayObject.java:102-109 | Through the jump-in window the object moves only towards the spawn depth, and at a constant rate: the depth covered between two times is the approach distance times the fraction of the window between them. |
| `Trajectory.CruiseAdvances` | src/client/java/com/beatcraft/render/PhysicalGameplayObject.java:106-115 | From the spawn beat to the jump-out beat the object moves only towards the jump-out depth, at a constant rate: the depth covered is the cruise distance times the fraction of the cruise between the two times. |
| `Trajectory.JumpsZContinuousAtSpawn` | src/client/java/com/beatcraft/render/PhysicalGameplayObject.java:102-109 | As time approaches the spawn beat from below, the approach depth tends to the depth at the spawn beat. There is an explicit epsilon-delta bound. |
| `Trajectory.JumpsZContinuousAtJumpOut` | src/client/java/com/beatcraft/render/PhysicalGameplayObject.java:106-114 | As time approaches the jump-out beat from below, the cruise depth tends to the depth at the jump-out beat. There is an explicit epsilon-delta bound. |
| `Trajectory.RecessionMonotone` | src/client/java/com/beatcraft/render/PhysicalGameplayObject.java:110-115 | During recession the object only moves on towards -500. A later depth lies between an earlier depth and -500. |
| `Trajectory.RecessionAccelerates` | src/client/java/com/beatcraft/render/PhysicalGameplayObject.java:110-115 | During recession, of two consecutive equal time steps, the second covers at least as much depth as the first. It covers strictly more unless the jump-out depth already is -500. |
| `Trajectory.Position2D` | src/client/java/com/beatcraft/render/PhysicalGameplayObject.java:118-122 | The lane and row can be recovered from the position: dividing by the 0.6 spacing gives the row, and adding column 1.5 gives the lane. |
| `Trajectory.GridLayout` | src/client/java/com/beatcraft/render/PhysicalGameplayObject.java:118-122 | Column 1.5 of row 0 is the origin. Lane order and row order are kept, in both directions. |
| `Trajectory.JumpsXY` | src/client/java/com/beatcraft/render/PhysicalGameplayObject.java:86-92 | The lane x is fixed. At lifetime 0.5 the height is exactly the row height, and at lifetime 0 and 1 it is the dip height. For lifetimes in [0, 1] the height stays between the two. Without gravity that range is [rowY - 0.3, rowY]. |
| `Trajectory.JumpsXYSymmetric` | src/client/java/com/beatcraft/render/PhysicalGameplayObject.java:86-92 | The lane position at lifetime `l` equals the one at `1 - l`. |
| `Trajectory.JumpsXYRises` | src/client/java/com/beatcraft/render/PhysicalGameplayObject.java:86-92 | Over the first half of the lifetime the height only moves towards the row height. |
| `Trajectory.DipStart` | src/client/java/com/beatcraft/render/PhysicalGameplayObject.java:90 | The height the dip starts from: a fixed -0.3 under gravity, otherwise 0.3 below the row; see `JumpsXY`. |
| `Trajectory.JumpsPosition` | src/client/java/com/beatcraft/render/PhysicalGameplayObject.java:81-84 | Pairs the lane position for the lifetime with the depth for the time; see `ArrivesOnBeat` and `PositionAtSpawn`. |
| `Trajectory.ArrivesOnBeat` | src/client/java/com/beatcraft/render/PhysicalGameplayObject.java:81-116 | At its target beat the object is exactly at its lane and row, at depth 0. |
| `Trajectory.PositionAtSpawn` | src/client/java/com/beatcraft/render/PhysicalGameplayObject.java:81-116 | At the spawn beat the object is at the spawn depth and at the bottom of its dip. |
| `Trajectory.JumpsRotation` | src/client/java/com/beatcraft/render/PhysicalGameplayObject.java:211-218 | Zero spawn progress gives exactly the base rotation. Any other progress gives a blend from the spawn rotation to the base rotation with a fraction in [0, 1]. The fraction is positive for positive progress, 0 for negative progress, and 1 from progress 0.3 on. |
| `Trajectory.JumpsRotationMonotone` | src/client/java/com/beatcraft/render/PhysicalGameplayObject.java:211-218 | Once blending has begun, the blend fraction never decreases. |
| `Trajectory.SpawnRotation` | src/client/java/com/beatcraft/render/PhysicalGameplayObject.java:203-208 | The jump blend for the doubled lifetime before mid-lifetime, the base rotation after; see `SpawnRotationWindow`. |
| `Trajectory.SpawnRotationWindow` | src/client/java/com/beatcraft/render/PhysicalGameplayObject.java:170-218 | Up to the spawn beat the base rotation is used. Strictly between the spawn beat and the target beat a blend with a positive fraction is used. From lifetime 0.15 on the blend has settled on the base rotation. |
| `Render.AnimationBeat` | src/client/java/com/beatcraft/render/PhysicalGameplayObject.java:229-239 | Interpolating the lifespan by an animation time ends the jump exactly from time 1 on. Inverse interpolation of the resulting beat gives the animation time back, for any time. A time in [0, 1] lands inside the lifespan, and its lifetime is that time. |
| `Render.EffectiveBeat` | src/client/java/com/beatcraft/render/PhysicalGameplayObject.java:229-234 | Before the spawn beat, or without an animation time, the clock beat is used. Otherwise the jump counts as ended exactly when the animation time is at least 1, and the beat is the point of the lifespan whose inverse interpolation is the animation time, whatever its sign. A time in [0, 1] gives a beat inside the lifespan whose lifetime is that time. |
| `Render.Placement` | src/client/java/com/beatcraft/render/PhysicalGameplayObject.java:170-208 | The jump position and spawn rotation at a time, as the spawn matrix applies them; `WorldRender`, `Tick` and `Run` state which frames carry it. |
| `Render.WorldRender` | src/client/java/com/beatcraft/render/PhysicalGameplayObject.java:225-241 | Only the flag may change. An ended frame despawns the object. A drawn frame keeps the object, is strictly before the despawn beat, and carries the trajectory placement at its own time. Without an override, or before the spawn beat, a drawn frame is placed at the clock beat, and the frame ends exactly when the beat reaches the despawn beat. With an override after spawning, the frame ends exactly when the animation time reaches 1. A drawn frame's time is then the point of the lifespan whose inverse interpolation is the animation time, and for a time in [0, 1) its lifetime is that time. |
| `Render.Tick` | src/client/java/com/beatcraft/render/PhysicalGameplayObject.java:71-79 | A frame is hidden exactly when the gate refuses. A despawned object stays hidden and unchanged. Only a live object can end or be drawn, and a drawn frame carries the trajectory placement at its time. Without an override, or before the spawn beat (where an override is ignored), that time is the clock beat, and at a non-negative tempo a live object ends exactly when the beat reaches the despawn beat. With an override, a live object that has spawned ends exactly when the animation time reaches 1 at a non-negative tempo. A drawn frame with an override after spawning has an animation time below 1, and its time is the point of the lifespan whose inverse interpolation is that animation time. |
| `Render.Run` | src/client/java/com/beatcraft/render/PhysicalGameplayObject.java:220-239 | Over a run of frames only the flag changes. A run from a despawned object is all hidden. The object ends up despawned exactly when it started despawned or some frame ended its jump. Every frame after an ended frame is hidden. Every frame that is not hidden is exactly the frame the starting object makes for that input alone, so everything `Tick` promises of a drawn or ended frame holds in the run (spelled out by `RunDrawsAsScheduled`). |
| `Render.RunDrawsAsScheduled` | src/client/java/com/beatcraft/render/PhysicalGameplayObject.java:225-241 | No frame of a run draws the object at or after its despawn beat. Every drawn frame carries the trajectory placement at its time. Without an override, or before the spawn beat, that time is the frame's clock beat. With an override after spawning, a drawn frame's animation time is below 1, and its time is the point of the lifespan whose inverse interpolation is that animation time. |
| `Render.LiveFrameIsTick` | src/client/java/com/beatcraft/render/PhysicalGameplayObject.java:220-239 | Until a frame of a run from a live object ends the jump, each frame is exactly the frame the starting object makes for that input alone. |
| `Render.OverrideEndsRun` | src/client/java/com/beatcraft/render/PhysicalGameplayObject.java:229-239 | In a run from a live object with no earlier ending, a frame after spawning with an animation time of at least 1 ends the jump, at any non-negative tempo. |
| `Render.ReplayAfterReset` | src/client/java/com/beatcraft/render/PhysicalGameplayObject.java:67-69 | Resetting after any run restores the live object it started as, so a replay produces the same frames as the first play. |
| `Render.EndsAtFirstLateFrame` | src/client/java/com/beatcraft/render/PhysicalGameplayObject.java:220-239 | Without overrides, and at non-negative tempos, a live object ends its jump on the first frame whose beat reaches the despawn beat. No earlier frame ends it. |

## Left out

- Floating-point rounding: all values are reals, and the constants 0.4, 0.6, 0.3 and 0.25 are taken exactly.
- `MathUtil.InverseLerp`: requires distinct ends. The source would divide by zero and produce an infinity or NaN. Every call in this model has distinct ends, because the jump parameters are positive.
- `Lerp`, `InverseLerp`, `Clamp01`, `EaseOutQuad` and `SecondsToBeats` belong to utility classes that are not part of this model. Their definitions are stated assumptions.
- The jump computation (`NoteMath.getJumps`) is not part of this model. Its half duration and jump distance are inputs and are assumed positive.
- The beatmap player's global beat and tempo, and the track animation state, are parameters of each frame.
- The spawn-quaternion pool is a parameter of construction: its choice is random and its source is not part of this model.
- Matrix composition (`getMatrix`, the translate/rotate/multiply steps of `applySpawnMatrix`) and the reflection across x are left out. They are 3D linear algebra over library types. A drawn frame records the position and rotation choice that feed them.
- The note-look rotation (`doNoteLook`, `rotateTo`, `slerp` towards the head) is left out. It is off in the base class and is library quaternion arithmetic.
- The quaternion slerp is kept symbolic (`Slerp(from, to, t)`), and the rotation record is never computed with.
- The drawing that follows a drawn frame is host rendering I/O and is not modelled. This covers the matrix-stack and normal-matrix updates, the size scaling, and the abstract `objectRender`.
- The lane-rotation getter and setter, `getData` and the fixed head position are left out. They are plain accessors that nothing modelled depends on.
- `doNoteGravity` is an overridable hook that returns true in the base class. It is modelled as a per-object flag.
- `Render.Tick` and `Render.Run`: the per-frame driver that calls the visibility gate and then the world rendering lives in the renderer base class, which is not part of this model. The model assumes it makes exactly those two calls per frame.

=== FILE: math_util.dfy ===
/**
 Scalar helpers the gameplay-object code calls but whose definitions live
 outside the modelled core (`MathUtil`, `org.joml.Math`, `Easing`).
 Each one is an ASSUMED definition, written out here so that the rest of the
 model can reason about it; the assumptions are listed in README.md.
 */
module MathUtil {

  function Abs(x: real): (r: real)
    ensures r >= 0.0
    ensures r == x || r == -x
  {
    if x < 0.0 then -x else x
  }

  /** `r` lies on the closed segment between `a` and `b`, in whichever order they come. */
  predicate Between(r: real, a: real, b: real) {
    if a <= b then a <= r <= b else b <= r <= a
  }

  /** Linear interpolation `a + (b - a) * p` (JOML `Math.lerp`); not clamped. */
  function Lerp(a: real, b: real, p: real): (r: real)
    ensures p == 0.0 ==> r == a
    ensures p == 1.0 ==> r == b
    ensures 0.0 <= p <= 1.0 ==> Between(r, a, b)
  {
    LerpFacts(a, b, p);
    a + (b - a) * p
  }

  /** Unclamped inverse interpolation `(t - a) / (b - a)` (assumed `MathUtil.inverseLerp`).
      A zero-width interval would divide by zero, so callers must supply `a != b`. */
  function InverseLerp(a: real, b: real, t: real): (r: real)
    requires a != b
    ensures Lerp(a, b, r) == t
    ensures t == a ==> r == 0.0
    ensures t == b ==> r == 1.0
    ensures a < b ==> (a <= t <= b <==> 0.0 <= r <= 1.0)
  {
    QuotientFacts(a, b, t);
    (t - a) / (b - a)
  }

  /** Clamps into the unit interval (assumed `MathUtil.clamp01`). */
  function Clamp01(x: real): (r: real)
    ensures 0.0 <= r <= 1.0
    ensures 0.0 <= x <= 1.0 ==> r == x
    ensures x <= 0.0 ==> r == 0.0
    ensures x >= 1.0 ==> r == 1.0
  {
    if x < 0.0 then 0.0 else if x > 1.0 then 1.0 else x
  }

  /** Ease-out quadratic curve `1 - (1 - x)^2` (assumed `Easing.easeOutQuad`). */
  function EaseOutQuad(x: real): (r: real)
    ensures 0.0 <= x <= 1.0 ==> 0.0 <= r <= 1.0
    ensures x == 0.0 ==> r == 0.0
    ensures x == 1.0 ==> r == 1.0
    ensures 0.0 < x <= 1.0 ==> r > 0.0
  {
    EaseFacts(x);
    1.0 - Square(1.0 - x)
  }

  /** `x * x`, the squared progress of the recession phase. */
  function Square(x: real): (r: real)
    ensures r >= 0.0
    ensures 0.0 <= x <= 1.0 ==> r <= 1.0
  {
    SquareBounds(x);
    x * x
  }

  /** Converts a duration in seconds into beats at tempo `bpm`
      (assumed `MathUtil.secondsToBeats`; one beat lasts 60/bpm seconds). */
  function SecondsToBeats(seconds: real, bpm: real): (r: real)
    ensures seconds >= 0.0 && bpm >= 0.0 ==> r >= 0.0
    ensures seconds > 0.0 && bpm > 0.0 ==> r > 0.0
    ensures r * 60.0 == seconds * bpm
  {
    seconds * bpm / 60.0
  }

  /** Multiplying by a non-negative factor preserves `<=`. */
  lemma MulMonotone(x: real, y: real, z: real)
    requires x <= y
    requires z >= 0.0
    ensures x * z <= y * z
  {
  }

  /** Dividing by a positive divisor preserves `<=`. */
  lemma DivMonotone(x: real, y: real, d: real)
    requires x <= y
    requires d > 0.0
    ensures x / d <= y / d
  {
  }

  lemma EaseFacts(x: real)
    ensures 0.0 < x <= 1.0 ==> Square(1.0 - x) < 1.0
  {
    var u := 1.0 - x;
    SquareBelowOne(u);
  }

  lemma SquareBelowOne(u: real)
    ensures 0.0 <= u < 1.0 ==> Square(u) < 1.0
  {
    SquareBounds(u);
  }

  lemma SquareBounds(u: real)
    ensures 0.0 <= u * u
    ensures 0.0 <= u <= 1.0 ==> u * u <= u
    ensures 0.0 <= u < 1.0 ==> u * u < 1.0
  {
  }

  /** The gap left between an interpolated value and the far end is the
      whole gap scaled by the remaining fraction. */
  lemma LerpGap(a: real, b: real, q: real)
    ensures Lerp(a, b, q) - b == (a - b) * (1.0 - q)
  {
  }

  /** The distance still to go from `Lerp(a, b, InverseLerp(lo, hi, t))` to `b`
      is proportional to the time `hi - t` still to go. */
  lemma LerpDistanceToEnd(a: real, b: real, lo: real, hi: real, t: real)
    requires lo < hi
    ensures Abs(Lerp(a, b, InverseLerp(lo, hi, t)) - b) == Abs(a - b) * Abs(hi - t) / (hi - lo)
  {
    var p := InverseLerp(lo, hi, t);
    LerpGap(a, b, p);
    InverseLerpRemaining(lo, hi, t);
    ScaledAbs(a - b, hi - t, hi - lo);
  }

  lemma ScaledAbs(c: real, n: real, w: real)
    requires w > 0.0
    ensures Abs(c * (n / w)) == Abs(c) * Abs(n) / w
  {
    AbsMul(c, n / w);
    AbsDiv(n, w);
    assert Abs(c) * (Abs(n) / w) == Abs(c) * Abs(n) / w;
  }

  /** The fraction of the interval still ahead of `t`. */
  lemma InverseLerpRemaining(lo: real, hi: real, t: real)
    requires lo < hi
    ensures 1.0 - InverseLerp(lo, hi, t) == (hi - t) / (hi - lo)
  {
    DivSub(hi - lo, t - lo, hi - lo);
    assert (hi - lo) / (hi - lo) == 1.0;
    assert (hi - lo) - (t - lo) == hi - t;
  }

  lemma DivSub(x: real, y: real, d: real)
    requires d != 0.0
    ensures x / d - y / d == (x - y) / d
  {
  }

  lemma AbsMul(x: real, y: real)
    ensures Abs(x * y) == Abs(x) * Abs(y)
  {
    if x < 0.0 && y < 0.0 {
      assert x * y == (-x) * (-y);
    } else if x < 0.0 {
      assert -(x * y) == (-x) * y;
    } else if y < 0.0 {
      assert -(x * y) == x * (-y);
    }
  }

  lemma AbsDiv(x: real, d: real)
    requires d > 0.0
    ensures Abs(x / d) == Abs(x) / d
  {
    if x < 0.0 {
      assert -(x / d) == (-x) / d;
    }
  }

  /** A linear interpolation driven by `t` is left-continuous at the end of its
      interval: within `eps * (hi - lo) / (|a - b| + 1)` before `hi` it is within
      `eps` of its end value `b`. */
  lemma LerpLeftContinuous(a: real, b: real, lo: real, hi: real, w: real, eps: real, t: real)
    requires lo < hi && w == hi - lo && eps > 0.0
    requires hi - eps * w / (Abs(a - b) + 1.0) < t <= hi
    ensures Abs(Lerp(a, b, InverseLerp(lo, hi, t)) - b) < eps
  {
    LerpDistanceToEnd(a, b, lo, hi, t);
    var d, s := Abs(a - b), hi - t;
    assert 0.0 <= s < eps * w / (d + 1.0);
    SmallStep(d, w, s, eps);
  }

  /** `d * s / w < eps` once `s` is below `eps * w / (d + 1)`. */
  lemma SmallStep(d: real, w: real, s: real, eps: real)
    requires d >= 0.0 && w > 0.0 && eps > 0.0
    requires 0.0 <= s < eps * w / (d + 1.0)
    ensures d * s / w < eps
  {
    var k := s / w;
    assert k < eps / (d + 1.0);
    MulMonotone(k, eps / (d + 1.0), d);
    assert d * k <= d * (eps / (d + 1.0));
    assert d * (eps / (d + 1.0)) < eps;
    assert d * s / w == d * k;
  }

  /** Interpolating back recovers the parameter: `InverseLerp` undoes `Lerp`. */
  lemma InverseLerpOfLerp(a: real, b: real, p: real)
    requires a != b
    ensures InverseLerp(a, b, Lerp(a, b, p)) == p
  {
    var t := Lerp(a, b, p);
    assert t - a == (b - a) * p;
  }

  /** Over an increasing interval, `InverseLerp` is non-decreasing in `t`. */
  lemma InverseLerpMonotone(a: real, b: real, t1: real, t2: real)
    requires a < b
    requires t1 <= t2
    ensures InverseLerp(a, b, t1) <= InverseLerp(a, b, t2)
  {
    DivMonotone(t1 - a, t2 - a, b - a);
  }

  lemma Clamp01Monotone(x: real, y: real)
    requires x <= y
    ensures Clamp01(x) <= Clamp01(y)
  {
  }

  /** On the unit interval the ease-out curve is non-decreasing. */
  lemma EaseOutQuadMonotone(x: real, y: real)
    requires 0.0 <= x <= y <= 1.0
    ensures EaseOutQuad(x) <= EaseOutQuad(y)
  {
    var u, v := 1.0 - x, 1.0 - y;
    SquareMonotone(v, u);
  }

  /** Interpolating further along the unit interval moves on towards the end
      `b`: the later value lies between the earlier one and `b`. */
  lemma LerpAdvances(a: real, b: real, q1: real, q2: real)
    requires 0.0 <= q1 <= q2 <= 1.0
    ensures Between(Lerp(a, b, q2), Lerp(a, b, q1), b)
  {
    if a <= b {
      OffsetMonotone(a, b, q1, q2);
      OffsetWithin(a, b, q2);
    } else {
      OffsetMonotone(b, a, q1, q2);
      OffsetWithin(b, a, q2);
      NegateProduct(a, b, q1);
      NegateProduct(a, b, q2);
    }
  }

  lemma LerpFacts(a: real, b: real, p: real)
    ensures p == 0.0 ==> a + (b - a) * p == a
    ensures p == 1.0 ==> a + (b - a) * p == b
    ensures 0.0 <= p <= 1.0 ==> Between(a + (b - a) * p, a, b)
  {
    if 0.0 <= p <= 1.0 {
      if a <= b {
        OffsetWithin(a, b, p);
      } else {
        OffsetWithin(b, a, p);
        NegateProduct(a, b, p);
      }
    }
  }

  lemma OffsetMonotone(a: real, b: real, q1: real, q2: real)
    requires a <= b && q1 <= q2
    ensures (b - a) * q1 <= (b - a) * q2
  {
  }

  lemma OffsetWithin(a: real, b: real, q: real)
    requires a <= b && 0.0 <= q <= 1.0
    ensures 0.0 <= (b - a) * q <= b - a
  {
    UnitScale(b - a, q);
  }

  lemma UnitScale(d: real, q: real)
    requires d >= 0.0 && 0.0 <= q <= 1.0
    ensures 0.0 <= d * q <= d
  {
    MulMonotoneLeft(0.0, q, d);
    MulMonotoneLeft(q, 1.0, d);
  }

  lemma QuotientFacts(a: real, b: real, t: real)
    requires a != b
    ensures a + (b - a) * ((t - a) / (b - a)) == t
    ensures a < b ==> (a <= t <= b <==> 0.0 <= (t - a) / (b - a) <= 1.0)
  {
    if a < b {
      QuotientLower(a, b, t);
      QuotientUpper(a, b, t);
    }
  }

  lemma QuotientLower(a: real, b: real, t: real)
    requires a < b
    ensures a <= t <==> 0.0 <= (t - a) / (b - a)
  {
  }

  lemma QuotientUpper(a: real, b: real, t: real)
    requires a < b
    ensures t <= b <==> (t - a) / (b - a) <= 1.0
  {
  }

  lemma NegateProduct(a: real, b: real, q: real)
    ensures (b - a) * q == -((a - b) * q)
  {
  }

  /** The distance between two interpolated values whose parameters are `w >= 0` apart. */
  lemma LerpStep(a: real, b: real, q1: real, q2: real, w: real)
    requires w == q2 - q1 >= 0.0
    ensures Abs(Lerp(a, b, q1) - Lerp(a, b, q2)) == Abs(b - a) * w
  {
    StepProduct(a, b, q1, q2);
    AbsScaled(b - a, q1, q2);
  }

  /** Interpolating over a time window `[lo, hi]` of width `w` moves
      monotonically from `a` to `b` at a constant rate: a later value lies
      between an earlier one and `b`, and the distance covered is `|b - a|`
      times the fraction of the window elapsed. */
  lemma LerpPhase(a: real, b: real, lo: real, hi: real, w: real, t1: real, t2: real)
    requires lo < hi && w == hi - lo
    requires lo <= t1 <= t2 <= hi
    ensures Between(Lerp(a, b, InverseLerp(lo, hi, t2)), Lerp(a, b, InverseLerp(lo, hi, t1)), b)
    ensures Abs(Lerp(a, b, InverseLerp(lo, hi, t1)) - Lerp(a, b, InverseLerp(lo, hi, t2)))
      == Abs(b - a) * ((t2 - t1) / w)
  {
    var p1, p2 := InverseLerp(lo, hi, t1), InverseLerp(lo, hi, t2);
    InverseLerpMonotone(lo, hi, t1, t2);
    LerpAdvances(a, b, p1, p2);
    DivSub(t2 - lo, t1 - lo, w);
    assert p2 - p1 == (t2 - t1) / w;
    LerpStep(a, b, p1, p2, p2 - p1);
  }

  lemma StepProduct(a: real, b: real, q1: real, q2: real)
    ensures Lerp(a, b, q1) - Lerp(a, b, q2) == (b - a) * (q1 - q2)
  {
  }

  /** The magnitude of `x` scaled by a non-positive difference. */
  lemma AbsScaled(x: real, k1: real, k2: real)
    requires k1 <= k2
    ensures Abs(x * (k1 - k2)) == Abs(x) * (k2 - k1)
  {
  }

  lemma MulMonotoneLeft(x: real, y: real, z: real)
    requires x <= y && z >= 0.0
    ensures z * x <= z * y
  {
  }

  lemma StrictMulMonotoneLeft(x: real, y: real, z: real)
    requires x < y && z > 0.0
    ensures z * x < z * y
  {
  }

  lemma SquareMonotone(p1: real, p2: real)
    requires 0.0 <= p1 <= p2
    ensures Square(p1) <= Square(p2)
  {
    SquareProductMonotone(p1, p2);
  }

  lemma SquareProductMonotone(p1: real, p2: real)
    requires 0.0 <= p1 <= p2
    ensures p1 * p1 <= p2 * p2
  {
  }

  /** Squares of three equally spaced non-negative points grow by increasing amounts. */
  lemma SquareSteps(p: real, q: real, r: real)
    requires 0.0 <= p < q && r - q == q - p
    ensures 0.0 < Square(q) - Square(p) < Square(r) - Square(q)
  {
    SquareProductSteps(p, q, r);
  }

  lemma SquareProductSteps(p: real, q: real, r: real)
    requires 0.0 <= p < q && r - q == q - p
    ensures 0.0 < q * q - p * p < r * r - q * q
  {
    assert q * q - p * p == (q - p) * (q + p);
    assert r * r - q * q == (q - p) * (r + q);
    StrictMulMonotoneLeft(0.0, q + p, q - p);
    StrictMulMonotoneLeft(q + p, r + q, q - p);
  }

  /** Interpolating by three parameters whose second gap is at least the first,
      the second step is at least as long as the first, and strictly longer
      when both the gap and the end points differ. */
  lemma LerpStepsGrow(a: real, b: real, s0: real, s1: real, s2: real)
    requires s0 <= s1 <= s2 && s1 - s0 <= s2 - s1
    ensures Abs(Lerp(a, b, s1) - Lerp(a, b, s2)) >= Abs(Lerp(a, b, s0) - Lerp(a, b, s1))
    ensures a != b && s1 - s0 < s2 - s1 ==>
      Abs(Lerp(a, b, s1) - Lerp(a, b, s2)) > Abs(Lerp(a, b, s0) - Lerp(a, b, s1))
  {
    var w1, w2 := s1 - s0, s2 - s1;
    LerpStep(a, b, s0, s1, w1);
    LerpStep(a, b, s1, s2, w2);
    var g := Abs(b - a);
    ScaleGaps(Abs(Lerp(a, b, s0) - Lerp(a, b, s1)), Abs(Lerp(a, b, s1) - Lerp(a, b, s2)), g, w1, w2);
  }

  /** Two distances that scale the same non-negative factor by ordered gaps are ordered. */
  lemma ScaleGaps(d1: real, d2: real, g: real, w1: real, w2: real)
    requires d1 == g * w1 && d2 == g * w2
    requires g >= 0.0 && w1 <= w2
    ensures d1 <= d2
    ensures g > 0.0 && w1 < w2 ==> d1 < d2
  {
    var e := w2 - w1;
    assert d2 - d1 == g * e;
    ProductSigns(g, e);
  }

  lemma ProductSigns(x: real, y: real)
    requires x >= 0.0 && y >= 0.0
    ensures x * y >= 0.0
    ensures x > 0.0 && y > 0.0 ==> x * y > 0.0
  {
  }

  lemma QuotientPositive(x: real, d: real)
    requires x > 0.0 && d > 0.0
    ensures x / d > 0.0
  {
  }

  /** Dividing by a positive divisor preserves `<`. */
  lemma StrictDivMonotone(x: real, y: real, d: real)
    requires x < y && d > 0.0
    ensures x / d < y / d
  {
  }

  /** `q` is the quotient `x / d` whenever `q * d == x`. */
  lemma QuotientOf(x: real, d: real, q: real)
    requires d != 0.0 && q * d == x
    ensures x / d == q
  {
  }

  /** Interpolating upwards, the far end is reached exactly from parameter 1 on. */
  lemma LerpReachesEnd(a: real, b: real, p: real)
    requires a < b
    ensures Lerp(a, b, p) >= b <==> p >= 1.0
  {
    var x, y := a - b, 1.0 - p;
    EndGap(a, b, p, x, y);
    NegativeFactor(x, y);
  }

  lemma EndGap(a: real, b: real, p: real, x: real, y: real)
    requires x == a - b && y == 1.0 - p
    ensures Lerp(a, b, p) - b == x * y
  {
  }

  lemma NegativeFactor(x: real, y: real)
    requires x < 0.0
    ensures x * y >= 0.0 <==> y <= 0.0
  {
  }
}

=== FILE: physical_object.dfy ===
/**
 The state of one physical gameplay object (a note, a bomb and so on) and
 its lifecycle gate: the beat boundaries of its jump, the spawn and jump-out
 depths, the despawned flag with `Despawn`/`Reset`, and the visibility test.

 The object is an immutable record; an operation that changes the flag
 returns the updated record.
 */
module PhysicalObject {
  import opened MathUtil

  /** Seconds of lead time before the spawn beat: the approach window of the jump
      and the visibility margin. */
  const JumpSeconds: real := 0.4

  /** The beatmap entry the object renders: its target beat and its lane
      column (`x`) and row (`y`). Read-only for this model. */
  datatype GameplayObject = GameplayObject(beat: real, x: real, y: real)

  /** The jump parameters derived once at construction from note-jump-speed,
      offset and tempo. */
  datatype Jumps = Jumps(halfDuration: real, jumpDistance: real)

  /** An orientation, carried as its four quaternion components; the model never
      computes with it. */
  datatype Rotation = Rotation(w: real, x: real, y: real, z: real)

  const Identity: Rotation := Rotation(1.0, 0.0, 0.0, 0.0)

  /** One object instance. `gravity` is the subtype's note-gravity switch,
      `jumpBeats` the jump-in window snapshotted at construction, `spawnRotation`
      the orientation drawn from the shared pool at construction. */
  datatype Object = Object(
    data: GameplayObject,
    jumps: Jumps,
    jumpBeats: real,
    spawnRotation: Rotation,
    baseRotation: Rotation,
    gravity: bool,
    despawned: bool)
  {
    /** The guarantees the upstream jump computation and beatmap loader give. */
    predicate Valid() {
      jumps.halfDuration > 0.0 && jumps.jumpDistance > 0.0 && jumpBeats > 0.0
    }
  }

  /** Constructs an object for `data` at tempo `bpm`. The jump parameters and the
      spawn orientation come from collaborators and are passed in. */
  function Create(data: GameplayObject, jumps: Jumps, bpm: real, spawnRotation: Rotation, gravity: bool): (o: Object)
    requires bpm > 0.0
    ensures !o.despawned
    ensures o.jumpBeats > 0.0 && o.jumpBeats * 60.0 == JumpSeconds * bpm
    ensures jumps.halfDuration > 0.0 && jumps.jumpDistance > 0.0 ==> o.Valid()
    ensures o.data == data && o.jumps == jumps && o.spawnRotation == spawnRotation
    ensures o.baseRotation == Identity && o.gravity == gravity
  {
    Object(data, jumps, SecondsToBeats(JumpSeconds, bpm), spawnRotation, Identity, gravity, false)
  }

  function SpawnBeat(o: Object): real {
    o.data.beat - o.jumps.halfDuration
  }

  function JumpOutBeat(o: Object): real {
    o.data.beat + o.jumps.halfDuration * 0.5
  }

  function DespawnBeat(o: Object): real {
    o.data.beat + o.jumps.halfDuration
  }

  function SpawnPosition(o: Object): real {
    o.jumps.jumpDistance / 2.0
  }

  function JumpOutPosition(o: Object): real {
    o.jumps.jumpDistance * -0.25
  }

  /** The three boundaries are strictly ordered, the target beat is the midpoint
      of the lifespan, and jump-out comes a quarter of the lifespan after it. */
  lemma BoundariesOrdered(o: Object)
    requires o.Valid()
    ensures SpawnBeat(o) < o.data.beat < JumpOutBeat(o) < DespawnBeat(o)
    ensures SpawnBeat(o) + DespawnBeat(o) == 2.0 * o.data.beat
    ensures 4.0 * (JumpOutBeat(o) - o.data.beat) == DespawnBeat(o) - SpawnBeat(o)
  {
  }

  /** The object spawns in front of the player and jumps out behind, half as far. */
  lemma PositionsOppose(o: Object)
    requires o.Valid()
    ensures JumpOutPosition(o) < 0.0 < SpawnPosition(o)
    ensures SpawnPosition(o) == -2.0 * JumpOutPosition(o)
  {
  }

  function Despawn(o: Object): (r: Object)
    ensures r.despawned
    ensures r.(despawned := o.despawned) == o
  {
    o.(despawned := true)
  }

  function IsDespawned(o: Object): bool {
    o.despawned
  }

  function Reset(o: Object): (r: Object)
    ensures !IsDespawned(r)
    ensures r.(despawned := o.despawned) == o
  {
    o.(despawned := false)
  }

  /** Resetting twice is the same as resetting once, and undoes a despawn. */
  lemma ResetIdempotent(o: Object)
    ensures Reset(Reset(o)) == Reset(o)
    ensures Reset(Despawn(o)) == Reset(o)
  {
  }

  /** Visibility gate. The lead margin is derived from the tempo current at
      the time of the call (`liveBpm`), not the snapshot taken at construction. */
  function ShouldRender(o: Object, currentBeat: real, liveBpm: real): bool {
    if IsDespawned(o) then false
    else
      var margin := SecondsToBeats(JumpSeconds, liveBpm);
      currentBeat >= SpawnBeat(o) - margin
  }

  /** A despawned object renders at no beat and no tempo; a live one is visible
      exactly from its lead margin at the live tempo on, which never lies after
      the spawn beat, and stays visible as the clock advances. */
  lemma ShouldRenderGate(o: Object, b1: real, b2: real, liveBpm: real)
    requires liveBpm >= 0.0
    ensures IsDespawned(o) ==> !ShouldRender(o, b1, liveBpm)
    ensures !IsDespawned(o) ==>
      (ShouldRender(o, b1, liveBpm) <==> b1 >= SpawnBeat(o) - SecondsToBeats(JumpSeconds, liveBpm))
    ensures !IsDespawned(o) && b1 >= SpawnBeat(o) ==> ShouldRender(o, b1, liveBpm)
    ensures ShouldRender(o, b1, liveBpm) && b1 <= b2 ==> ShouldRender(o, b2, liveBpm)
  {
  }

  /** When the tempo has not changed since construction, the object becomes
      visible exactly when its jump-in window opens. */
  lemma MarginMatchesJumpIn(data: GameplayObject, jumps: Jumps, bpm: real, q: Rotation, gravity: bool, beat: real)
    requires bpm > 0.0
    ensures var o := Create(data, jumps, bpm, q, gravity);
      ShouldRender(o, beat, bpm) <==> beat >= SpawnBeat(o) - o.jumpBeats
  {
  }

  /** The jump is over once the beat reaches the despawn boundary. */
  function JumpEnded(o: Object, beat: real): bool {
    beat >= DespawnBeat(o)
  }
}

=== FILE: render.dfy ===
/**
 The per-frame lifecycle of a physical gameplay object: the beat override by
 the track animation time, the despawn once the jump has ended, the visibility
 gate in front of it, and a run of frames with `Reset` to replay.

 Only the decisions are modelled; the matrix composition and the drawing that
 follow a drawn frame are represented by the placement the frame records.
 */
module Render {
  import opened MathUtil
  import opened PhysicalObject
  import opened Trajectory

  datatype Option<T> = None | Some(value: T)

  /** What one frame did: not rendered by the visibility gate, ended the jump
      (and despawned the object), or drew the object at the effective beat
      `time` with the given placement. */
  datatype Frame = Hidden | Ended | Drawn(time: real, position: Vec3, rotation: RotationBlend)

  /** The object after a frame, and the frame. */
  datatype Step = Step(obj: Object, frame: Frame)

  /** One frame's inputs: the player's current beat, the live tempo, and the
      time of the object's track animation, if it has one. */
  datatype FrameInput = FrameInput(beat: real, bpm: real, animationTime: Option<real>)

  /** Interpolating across the lifespan by animation time `a`: the jump has ended
      exactly from `a = 1` on, and a time in [0, 1] is the lifetime it yields. */
  lemma AnimationBeat(o: Object, a: real)
    requires o.Valid()
    ensures var r := Lerp(SpawnBeat(o), DespawnBeat(o), a);
      (JumpEnded(o, r) <==> a >= 1.0)
      && InverseLerp(SpawnBeat(o), DespawnBeat(o), r) == a
      && (0.0 <= a <= 1.0 ==> SpawnBeat(o) <= r <= DespawnBeat(o) && Lifetime(o, r) == a)
  {
    BoundariesOrdered(o);
    LerpReachesEnd(SpawnBeat(o), DespawnBeat(o), a);
    InverseLerpOfLerp(SpawnBeat(o), DespawnBeat(o), a);
  }

  /** The beat a frame is computed at. Once the object has spawned, an
      animation time overrides the clock: it is the fraction of the lifespan. */
  function EffectiveBeat(o: Object, beat: real, animationTime: Option<real>): (r: real)
    requires o.Valid()
    ensures beat < SpawnBeat(o) || animationTime.None? ==> r == beat
    ensures beat >= SpawnBeat(o) && animationTime.Some? ==>
      (JumpEnded(o, r) <==> animationTime.value >= 1.0)
    ensures beat >= SpawnBeat(o) && animationTime.Some? ==>
      SpawnBeat(o) != DespawnBeat(o) && InverseLerp(SpawnBeat(o), DespawnBeat(o), r) == animationTime.value
    ensures beat >= SpawnBeat(o) && animationTime.Some? && 0.0 <= animationTime.value <= 1.0 ==>
      SpawnBeat(o) <= r <= DespawnBeat(o) && Lifetime(o, r) == animationTime.value
  {
    if beat >= SpawnBeat(o) && animationTime.Some? then
      AnimationBeat(o, animationTime.value);
      Lerp(SpawnBeat(o), DespawnBeat(o), animationTime.value)
    else
      beat
  }

  /** The placement the spawn matrix applies at `time`. */
  function Placement(o: Object, time: real): Frame
    requires o.Valid()
  {
    var lifetime := Lifetime(o, time);
    Drawn(time, JumpsPosition(o, lifetime, time), SpawnRotation(o, lifetime))
  }

  /** One call of the object's world rendering: despawn and draw nothing once
      the jump has ended at the effective beat, otherwise draw it there. */
  function WorldRender(o: Object, beat: real, animationTime: Option<real>): (s: Step)
    requires o.Valid()
    ensures s.obj.(despawned := o.despawned) == o
    ensures !s.frame.Hidden?
    ensures s.frame.Ended? ==> s.obj == Despawn(o)
    ensures s.frame.Drawn? ==> s.obj == o && s.frame.time < DespawnBeat(o)
    ensures animationTime.None? || beat < SpawnBeat(o) ==> (s.frame.Ended? <==> beat >= DespawnBeat(o))
    ensures beat < SpawnBeat(o) ==> s.frame == Placement(o, beat)
    ensures (animationTime.None? || beat < SpawnBeat(o)) && s.frame.Drawn? ==> s.frame == Placement(o, beat)
    ensures s.frame.Drawn? ==> s.frame == Placement(o, s.frame.time)
    ensures beat >= SpawnBeat(o) && animationTime.Some? ==>
      (s.frame.Ended? <==> animationTime.value >= 1.0)
    ensures s.frame.Drawn? && beat >= SpawnBeat(o) && animationTime.Some? ==>
      SpawnBeat(o) != DespawnBeat(o)
      && InverseLerp(SpawnBeat(o), DespawnBeat(o), s.frame.time) == animationTime.value
    ensures s.frame.Drawn? && beat >= SpawnBeat(o) && animationTime.Some? && animationTime.value >= 0.0 ==>
      Lifetime(o, s.frame.time) == animationTime.value
  {
    var effective := EffectiveBeat(o, beat, animationTime);
    if JumpEnded(o, effective) then
      Step(Despawn(o), Ended)
    else
      Step(o, Placement(o, effective))
  }

  /** One frame: the visibility gate, then the world rendering. */
  function Tick(o: Object, input: FrameInput): (s: Step)
    requires o.Valid()
    ensures s.obj.(despawned := o.despawned) == o
    ensures s.frame.Hidden? <==> !ShouldRender(o, input.beat, input.bpm)
    ensures o.despawned ==> s == Step(o, Hidden)
    ensures s.frame.Hidden? ==> s.obj == o
    ensures s.frame.Ended? ==> !o.despawned && s.obj.despawned
    ensures s.frame.Drawn? ==> !o.despawned && s.obj == o && s.frame.time < DespawnBeat(o)
    ensures s.frame.Drawn? ==> s.frame == Placement(o, s.frame.time)
    ensures (input.animationTime.None? || input.beat < SpawnBeat(o)) && s.frame.Drawn? ==>
      s.frame == Placement(o, input.beat)
    ensures !o.despawned && input.bpm >= 0.0 && (input.animationTime.None? || input.beat < SpawnBeat(o)) ==>
      (s.frame.Ended? <==> input.beat >= DespawnBeat(o))
    ensures !o.despawned && input.bpm >= 0.0 && input.beat >= SpawnBeat(o) && input.animationTime.Some? ==>
      (s.frame.Ended? <==> input.animationTime.value >= 1.0)
    ensures s.frame.Drawn? && input.beat >= SpawnBeat(o) && input.animationTime.Some? ==>
      input.animationTime.value < 1.0
      && SpawnBeat(o) != DespawnBeat(o)
      && InverseLerp(SpawnBeat(o), DespawnBeat(o), s.frame.time) == input.animationTime.value
  {
    if ShouldRender(o, input.beat, input.bpm) then
      WorldRender(o, input.beat, input.animationTime)
    else
      Step(o, Hidden)
  }

  /** The object after a run of frames, and the frames in order. */
  datatype Trace = Trace(obj: Object, frames: seq<Frame>)

  /** A run of frames. Only the despawned flag ever changes; a despawned object
      is never drawn again; the jump ends at most once; and every frame that is
      not hidden is the frame the object as it started makes for that input. */
  function Run(o: Object, inputs: seq<FrameInput>): (r: Trace)
    requires o.Valid()
    ensures |r.frames| == |inputs|
    ensures r.obj.(despawned := o.despawned) == o
    ensures o.despawned ==> r.obj.despawned && forall i :: 0 <= i < |r.frames| ==> r.frames[i].Hidden?
    ensures r.obj.despawned <==> o.despawned || exists i :: 0 <= i < |r.frames| && r.frames[i].Ended?
    ensures forall i, j :: 0 <= i < j < |r.frames| && r.frames[i].Ended? ==> r.frames[j].Hidden?
    ensures forall i :: 0 <= i < |r.frames| && !r.frames[i].Hidden? ==> r.frames[i] == Tick(o, inputs[i]).frame
    decreases |inputs|
  {
    if |inputs| == 0 then
      Trace(o, [])
    else
      var s := Tick(o, inputs[0]);
      var rest := Run(s.obj, inputs[1..]);
      EndedIn(s.frame, rest.frames);
      EndsOnceIn(s.frame, rest.frames);
      Trace(rest.obj, [s.frame] + rest.frames)
  }

  /** What a single frame promises about drawing holds for every frame of a
      run: a drawn frame lies before the despawn beat and carries the placement
      at its time, which is the player's beat without an animation override
      and, after spawning with one, the point of the lifespan the animation
      time (then below 1) names. */
  lemma RunDrawsAsScheduled(o: Object, inputs: seq<FrameInput>)
    requires o.Valid()
    ensures var frames := Run(o, inputs).frames;
      forall i :: 0 <= i < |frames| && frames[i].Drawn? ==>
        frames[i].time < DespawnBeat(o) && frames[i] == Placement(o, frames[i].time)
    ensures var frames := Run(o, inputs).frames;
      forall i :: (0 <= i < |frames| && frames[i].Drawn? && (inputs[i].animationTime.None? || inputs[i].beat < SpawnBeat(o))) ==>
        frames[i] == Placement(o, inputs[i].beat)
    ensures var frames := Run(o, inputs).frames;
      forall i :: (0 <= i < |frames| && frames[i].Drawn? && inputs[i].beat >= SpawnBeat(o) && inputs[i].animationTime.Some?) ==>
        inputs[i].animationTime.value < 1.0
        && SpawnBeat(o) != DespawnBeat(o)
        && InverseLerp(SpawnBeat(o), DespawnBeat(o), frames[i].time) == inputs[i].animationTime.value
  {
    var frames := Run(o, inputs).frames;
    forall i | 0 <= i < |frames| && frames[i].Drawn?
      ensures frames[i].time < DespawnBeat(o) && frames[i] == Placement(o, frames[i].time)
      ensures inputs[i].animationTime.None? || inputs[i].beat < SpawnBeat(o) ==> frames[i] == Placement(o, inputs[i].beat)
      ensures inputs[i].beat >= SpawnBeat(o) && inputs[i].animationTime.Some? ==>
        inputs[i].animationTime.value < 1.0
        && SpawnBeat(o) != DespawnBeat(o)
        && InverseLerp(SpawnBeat(o), DespawnBeat(o), frames[i].time) == inputs[i].animationTime.value
    {
      assert frames[i] == Tick(o, inputs[i]).frame;
    }
  }

  /** Some frame of `[f] + rest` ends the jump exactly when `f` or a frame of
      `rest` does. */
  lemma EndedIn(f: Frame, rest: seq<Frame>)
    ensures (exists i :: 0 <= i < |[f] + rest| && ([f] + rest)[i].Ended?)
      <==> f.Ended? || exists i :: 0 <= i < |rest| && rest[i].Ended?
  {
    var frames := [f] + rest;
    assert frames[0] == f;
    if exists i :: 0 <= i < |rest| && rest[i].Ended? {
      var i :| 0 <= i < |rest| && rest[i].Ended?;
      assert frames[i + 1] == rest[i];
    }
    if exists i :: 0 <= i < |frames| && frames[i].Ended? {
      var i :| 0 <= i < |frames| && frames[i].Ended?;
      if i > 0 {
        assert rest[i - 1] == frames[i];
      }
    }
  }

  /** Prepending a frame keeps "every frame after an ending is hidden" when
      every frame after the new one is hidden should it end the jump. */
  lemma EndsOnceIn(f: Frame, rest: seq<Frame>)
    requires forall i, j :: 0 <= i < j < |rest| && rest[i].Ended? ==> rest[j].Hidden?
    requires f.Ended? ==> forall i :: 0 <= i < |rest| ==> rest[i].Hidden?
    ensures forall i, j :: 0 <= i < j < |[f] + rest| && ([f] + rest)[i].Ended? ==> ([f] + rest)[j].Hidden?
  {
    var frames := [f] + rest;
    forall i, j | 0 <= i < j < |frames| && frames[i].Ended?
      ensures frames[j].Hidden?
    {
      assert frames[j] == rest[j - 1];
      if i > 0 {
        assert frames[i] == rest[i - 1];
      }
    }
  }

  /** Resetting after any run restores the object as it was before a run that
      started live, so a replay behaves exactly like the first play. */
  lemma ReplayAfterReset(o: Object, first: seq<FrameInput>, replay: seq<FrameInput>)
    requires o.Valid() && !o.despawned
    ensures Reset(Run(o, first).obj) == o
    ensures Run(Reset(Run(o, first).obj), replay) == Run(o, replay)
  {
  }

  /** With no animation override and a non-negative tempo, a live object ends
      its jump on the first frame whose beat reaches the despawn beat, and is
      drawn or hidden on every frame before it. */
  lemma EndsAtFirstLateFrame(o: Object, inputs: seq<FrameInput>, k: nat)
    requires o.Valid() && !o.despawned
    requires k < |inputs|
    requires forall i :: 0 <= i < |inputs| ==> inputs[i].animationTime.None? && inputs[i].bpm >= 0.0
    requires forall i :: 0 <= i < k ==> inputs[i].beat < DespawnBeat(o)
    requires inputs[k].beat >= DespawnBeat(o)
    ensures Run(o, inputs).frames[k].Ended?
    ensures forall i :: 0 <= i < k ==> !Run(o, inputs).frames[i].Ended?
  {
    NoEndBeforeLateFrame(o, inputs, k);
    LiveFrameIsTick(o, inputs, k);
  }

  /** With no animation override and a non-negative tempo, no frame of a live
      object's run ends the jump while the beats stay before the despawn beat. */
  lemma {:induction false} NoEndBeforeLateFrame(o: Object, inputs: seq<FrameInput>, k: nat)
    requires o.Valid() && !o.despawned
    requires k <= |inputs|
    requires forall i :: 0 <= i < k ==> inputs[i].animationTime.None? && inputs[i].bpm >= 0.0
    requires forall i :: 0 <= i < k ==> inputs[i].beat < DespawnBeat(o)
    ensures forall i :: 0 <= i < k ==> !Run(o, inputs).frames[i].Ended?
    decreases k
  {
    if k > 0 {
      NoEndBeforeLateFrame(o, inputs, k - 1);
      LiveFrameIsTick(o, inputs, k - 1);
      TickBeforeDespawn(o, inputs[k - 1]);
    }
  }

  /** Without an override and at a non-negative tempo, a frame of a live object
      before its despawn beat does not end the jump. */
  lemma TickBeforeDespawn(o: Object, input: FrameInput)
    requires o.Valid() && !o.despawned
    requires input.animationTime.None? && input.bpm >= 0.0 && input.beat < DespawnBeat(o)
    ensures !Tick(o, input).frame.Ended?
  {
  }

  /** While no earlier frame of a run has ended the jump, a frame of a run that
      started live is exactly the single frame of the object as it started. */
  lemma LiveFrameIsTick(o: Object, inputs: seq<FrameInput>, k: nat)
    requires o.Valid() && !o.despawned
    requires k < |inputs|
    requires forall i :: 0 <= i < k ==> !Run(o, inputs).frames[i].Ended?
    ensures Run(o, inputs).frames[k] == Tick(o, inputs[k]).frame
  {
    LiveRunSuffix(o, inputs, k);
    RunHead(o, inputs[k..]);
    assert inputs[k..][0] == inputs[k];
  }

  /** Before the jump ends, frame `k` of a run from a live object is the first
      frame of the run of the inputs from `k` on. */
  lemma {:induction false} LiveRunSuffix(o: Object, inputs: seq<FrameInput>, k: nat)
    requires o.Valid() && !o.despawned
    requires k < |inputs|
    requires forall i :: 0 <= i < k ==> !Run(o, inputs).frames[i].Ended?
    ensures Run(o, inputs).frames[k] == Run(o, inputs[k..]).frames[0]
    decreases k
  {
    if k > 0 {
      RunShift(o, inputs, k);
      LiveRunSuffix(o, inputs[1..], k - 1);
      assert inputs[1..][k - 1..] == inputs[k..];
    }
  }

  /** Before the jump ends, frame `k` of a run from a live object is frame
      `k - 1` of the run of the later inputs from the same object. */
  lemma RunShift(o: Object, inputs: seq<FrameInput>, k: nat)
    requires o.Valid() && !o.despawned
    requires 0 < k < |inputs|
    requires forall i :: 0 <= i < k ==> !Run(o, inputs).frames[i].Ended?
    ensures Run(o, inputs).frames[k] == Run(o, inputs[1..]).frames[k - 1]
    ensures forall i :: 0 <= i < k - 1 ==> !Run(o, inputs[1..]).frames[i].Ended?
  {
    RunHead(o, inputs);
    NoEndInTail(Run(o, inputs).frames, Run(o, inputs[1..]).frames, k);
  }

  /** The tail of a run of frames has no ending among its first `k - 1` frames
      when the run has none among its first `k`. */
  lemma NoEndInTail(frames: seq<Frame>, rest: seq<Frame>, k: nat)
    requires 0 < k <= |frames| && rest == frames[1..]
    requires forall i :: 0 <= i < k ==> !frames[i].Ended?
    ensures forall i :: 0 <= i < k - 1 ==> !rest[i].Ended?
    ensures k < |frames| ==> frames[k] == rest[k - 1]
  {
    forall i | 0 <= i < k - 1
      ensures !rest[i].Ended?
    {
      assert rest[i] == frames[i + 1];
    }
  }

  /** The first frame of a run is the object's single frame, and unless it ends
      the jump the rest of the run is the run of the rest from the same object. */
  lemma RunHead(o: Object, inputs: seq<FrameInput>)
    requires o.Valid() && |inputs| > 0
    ensures Run(o, inputs).frames[0] == Tick(o, inputs[0]).frame
    ensures !Tick(o, inputs[0]).frame.Ended? ==> Run(o, inputs).frames[1..] == Run(o, inputs[1..]).frames
  {
    var s := Tick(o, inputs[0]);
    assert Run(o, inputs).frames == [s.frame] + Run(s.obj, inputs[1..]).frames;
  }

  /** An animation time of at least 1 ends the jump of a live, spawned object on
      the first such frame of a run, at any non-negative tempo. */
  lemma OverrideEndsRun(o: Object, inputs: seq<FrameInput>, k: nat)
    requires o.Valid() && !o.despawned
    requires k < |inputs|
    requires forall i :: 0 <= i < k ==> !Run(o, inputs).frames[i].Ended?
    requires inputs[k].bpm >= 0.0 && inputs[k].beat >= SpawnBeat(o)
    requires inputs[k].animationTime.Some? && inputs[k].animationTime.value >= 1.0
    ensures Run(o, inputs).frames[k].Ended?
  {
    LiveFrameIsTick(o, inputs, k);
  }
}

=== FILE: trajectory.dfy ===
/**
 The jump trajectory of a physical gameplay object: its normalised lifetime,
 the three-phase depth curve, the lane-plane position with its vertical dip,
 and the spawn-orientation blend (kept symbolic: the spherical interpolation
 itself is not modelled).
 */
module Trajectory {
  import opened MathUtil
  import opened PhysicalObject

  /** Depth at which an object appears far ahead, and (negated) where it ends far behind. */
  const JumpFarZ: real := 500.0

  /** Spacing between neighbouring lanes, and the column that sits at x = 0. */
  const LaneSpacing: real := 0.6
  const CenterColumn: real := 1.5

  /** Depth of the vertical dip at the edges of the lifetime. */
  const DipDepth: real := 0.3

  /** Fraction of the first half of the lifetime over which the spawn rotation settles. */
  const RotationSettle: real := 0.3

  datatype Vec2 = Vec2(x: real, y: real)
  datatype Vec3 = Vec3(x: real, y: real, z: real)

  /** An orientation to render: a given rotation, or the spherical interpolation
      from `from` to `to` by the fraction `t`. */
  datatype RotationBlend = Exactly(q: Rotation) | Slerp(from: Rotation, to: Rotation, t: real)

  /** The blend lands on `q`. */
  predicate Resolves(b: RotationBlend, q: Rotation) {
    b == Exactly(q) || (b.Slerp? && b.to == q && b.t == 1.0)
  }

  /** Progress from spawn (0) to despawn (1), clamped. */
  function Lifetime(o: Object, t: real): (r: real)
    requires o.Valid()
    ensures 0.0 <= r <= 1.0
    ensures t <= SpawnBeat(o) ==> r == 0.0
    ensures t >= DespawnBeat(o) ==> r == 1.0
    ensures SpawnBeat(o) <= t <= DespawnBeat(o) ==> Lerp(SpawnBeat(o), DespawnBeat(o), r) == t
  {
    BoundariesOrdered(o);
    Clamp01(InverseLerp(SpawnBeat(o), DespawnBeat(o), t))
  }

  /** Lifetime never runs backwards as the clock advances. */
  lemma LifetimeMonotone(o: Object, t1: real, t2: real)
    requires o.Valid()
    requires t1 <= t2
    ensures Lifetime(o, t1) <= Lifetime(o, t2)
  {
    BoundariesOrdered(o);
    InverseLerpMonotone(SpawnBeat(o), DespawnBeat(o), t1, t2);
    Clamp01Monotone(InverseLerp(SpawnBeat(o), DespawnBeat(o), t1), InverseLerp(SpawnBeat(o), DespawnBeat(o), t2));
  }

  /** The target beat is exactly half-way through the lifetime. */
  lemma LifetimeAtBeat(o: Object)
    requires o.Valid()
    ensures Lifetime(o, o.data.beat) == 0.5
  {
    BoundariesOrdered(o);
    var hd := o.jumps.halfDuration;
    assert InverseLerp(SpawnBeat(o), DespawnBeat(o), o.data.beat) == hd / (2.0 * hd);
    assert hd / (2.0 * hd) == 0.5 by {
      assert 0.5 * (2.0 * hd) == hd;
    }
  }

  /** Progress through the first half of the lifetime, doubled and clamped. */
  function SpawnLifetime(lifetime: real): (r: real)
    ensures 0.0 <= r <= 1.0
    ensures 0.0 <= lifetime <= 0.5 ==> r == 2.0 * lifetime
    ensures lifetime >= 0.5 ==> r == 1.0
    ensures lifetime <= 0.0 ==> r == 0.0
  {
    Clamp01(lifetime * 2.0)
  }

  /** Depth along the jump: approach from far ahead until the spawn beat,
      cruise to the jump-out depth, then recede on a squared curve. */
  function JumpsZ(o: Object, t: real): (r: real)
    requires o.Valid()
    ensures t == SpawnBeat(o) - o.jumpBeats ==> r == JumpFarZ
    ensures t == SpawnBeat(o) ==> r == SpawnPosition(o)
    ensures t == JumpOutBeat(o) ==> r == JumpOutPosition(o)
    ensures t == DespawnBeat(o) ==> r == -JumpFarZ
    ensures SpawnBeat(o) - o.jumpBeats <= t < SpawnBeat(o) ==> Between(r, JumpFarZ, SpawnPosition(o))
    ensures SpawnBeat(o) <= t < JumpOutBeat(o) ==> Between(r, SpawnPosition(o), JumpOutPosition(o))
    ensures JumpOutBeat(o) <= t <= DespawnBeat(o) ==> Between(r, JumpOutPosition(o), -JumpFarZ)
  {
    BoundariesOrdered(o);
    var spawnBeat := SpawnBeat(o);
    var jumpOutBeat := JumpOutBeat(o);
    if t < spawnBeat then
      var percent := InverseLerp(spawnBeat - o.jumpBeats, spawnBeat, t);
      Lerp(JumpFarZ, SpawnPosition(o), percent)
    else if t < jumpOutBeat then
      var percent := InverseLerp(spawnBeat, jumpOutBeat, t);
      Lerp(SpawnPosition(o), JumpOutPosition(o), percent)
    else
      var percent := InverseLerp(jumpOutBeat, DespawnBeat(o), t);
      Lerp(JumpOutPosition(o), -JumpFarZ, Square(percent))
  }

  /** Approaching the spawn beat from below, the depth tends to the spawn depth:
      within `eps * jumpBeats / (|JumpFarZ - SpawnPosition| + 1)` beats of it,
      the depth is within `eps` of the value at the spawn beat. */
  lemma JumpsZContinuousAtSpawn(o: Object, eps: real, t: real)
    requires o.Valid() && eps > 0.0
    requires SpawnBeat(o) - eps * o.jumpBeats / (Abs(JumpFarZ - SpawnPosition(o)) + 1.0) < t < SpawnBeat(o)
    ensures Abs(JumpsZ(o, t) - JumpsZ(o, SpawnBeat(o))) < eps
  {
    LerpLeftContinuous(JumpFarZ, SpawnPosition(o), SpawnBeat(o) - o.jumpBeats, SpawnBeat(o), o.jumpBeats, eps, t);
  }

  /** Approaching the jump-out beat from below, the cruise depth tends to the
      jump-out depth, the value at the jump-out beat. */
  lemma JumpsZContinuousAtJumpOut(o: Object, eps: real, t: real)
    requires o.Valid() && eps > 0.0
    requires SpawnBeat(o) <= t
    requires JumpOutBeat(o) - eps * (JumpOutBeat(o) - SpawnBeat(o)) / (Abs(SpawnPosition(o) - JumpOutPosition(o)) + 1.0) < t < JumpOutBeat(o)
    ensures Abs(JumpsZ(o, t) - JumpsZ(o, JumpOutBeat(o))) < eps
  {
    BoundariesOrdered(o);
    LerpLeftContinuous(SpawnPosition(o), JumpOutPosition(o), SpawnBeat(o), JumpOutBeat(o), JumpOutBeat(o) - SpawnBeat(o), eps, t);
  }

  /** Through the jump-in window the object approaches linearly: a later depth
      lies between an earlier one and the spawn depth, and the depth covered is
      the whole approach distance times the fraction of the window elapsed. */
  lemma ApproachAdvances(o: Object, t1: real, t2: real)
    requires o.Valid()
    requires SpawnBeat(o) - o.jumpBeats <= t1 <= t2 <= SpawnBeat(o)
    ensures Between(JumpsZ(o, t2), JumpsZ(o, t1), SpawnPosition(o))
    ensures Abs(JumpsZ(o, t1) - JumpsZ(o, t2)) == Abs(SpawnPosition(o) - JumpFarZ) * ((t2 - t1) / o.jumpBeats)
  {
    var lo, hi := SpawnBeat(o) - o.jumpBeats, SpawnBeat(o);
    ApproachDepth(o, t1);
    ApproachDepth(o, t2);
    LerpPhase(JumpFarZ, SpawnPosition(o), lo, hi, o.jumpBeats, t1, t2);
  }

  /** Through the jump-in window the depth is the interpolation from the far
      end to the spawn depth by the progress through the window. */
  lemma ApproachDepth(o: Object, t: real)
    requires o.Valid()
    requires SpawnBeat(o) - o.jumpBeats <= t <= SpawnBeat(o)
    ensures JumpsZ(o, t) == Lerp(JumpFarZ, SpawnPosition(o), InverseLerp(SpawnBeat(o) - o.jumpBeats, SpawnBeat(o), t))
  {
  }

  /** From the spawn beat to the jump-out beat the object cruises linearly: a
      later depth lies between an earlier one and the jump-out depth, and the
      depth covered is the whole cruise distance times the fraction of the
      cruise elapsed. */
  lemma CruiseAdvances(o: Object, t1: real, t2: real)
    requires o.Valid()
    requires SpawnBeat(o) <= t1 <= t2 <= JumpOutBeat(o)
    ensures Between(JumpsZ(o, t2), JumpsZ(o, t1), JumpOutPosition(o))
    ensures Abs(JumpsZ(o, t1) - JumpsZ(o, t2))
      == Abs(JumpOutPosition(o) - SpawnPosition(o)) * ((t2 - t1) / (JumpOutBeat(o) - SpawnBeat(o)))
  {
    BoundariesOrdered(o);
    var lo, hi := SpawnBeat(o), JumpOutBeat(o);
    CruiseDepth(o, t1);
    CruiseDepth(o, t2);
    LerpPhase(SpawnPosition(o), JumpOutPosition(o), lo, hi, hi - lo, t1, t2);
  }

  /** From the spawn beat to the jump-out beat the depth is the interpolation
      from the spawn depth to the jump-out depth by the progress through the
      cruise. */
  lemma CruiseDepth(o: Object, t: real)
    requires o.Valid()
    requires SpawnBeat(o) <= t <= JumpOutBeat(o)
    ensures SpawnBeat(o) < JumpOutBeat(o)
    ensures JumpsZ(o, t) == Lerp(SpawnPosition(o), JumpOutPosition(o), InverseLerp(SpawnBeat(o), JumpOutBeat(o), t))
  {
    BoundariesOrdered(o);
  }

  /** In the recession phase the depth interpolates from the jump-out depth to
      the far end by the squared progress through the phase. */
  lemma RecessionShape(o: Object, t: real)
    requires o.Valid()
    requires t >= JumpOutBeat(o)
    ensures var p := InverseLerp(JumpOutBeat(o), DespawnBeat(o), t);
      p >= 0.0 && JumpsZ(o, t) == Lerp(JumpOutPosition(o), -JumpFarZ, Square(p))
  {
    BoundariesOrdered(o);
  }

  /** Through the recession phase the object only ever moves on towards the
      far end: a later depth lies between an earlier one and `-JumpFarZ`. */
  lemma RecessionMonotone(o: Object, t1: real, t2: real)
    requires o.Valid()
    requires JumpOutBeat(o) <= t1 <= t2 <= DespawnBeat(o)
    ensures Between(JumpsZ(o, t2), JumpsZ(o, t1), -JumpFarZ)
  {
    BoundariesOrdered(o);
    var lo, hi := JumpOutBeat(o), DespawnBeat(o);
    var p1, p2 := InverseLerp(lo, hi, t1), InverseLerp(lo, hi, t2);
    InverseLerpMonotone(lo, hi, t1, t2);
    RecessionShape(o, t1);
    RecessionShape(o, t2);
    SquareMonotone(p1, p2);
    LerpAdvances(JumpOutPosition(o), -JumpFarZ, Square(p1), Square(p2));
  }

  /** The recession accelerates: over two consecutive equal steps of time in the
      phase, the second covers at least as much depth as the first, and strictly
      more unless the jump-out depth already is the far end. */
  lemma RecessionAccelerates(o: Object, t: real, h: real)
    requires o.Valid()
    requires JumpOutBeat(o) <= t && h > 0.0
    ensures Abs(JumpsZ(o, t + h) - JumpsZ(o, t + 2.0 * h)) >= Abs(JumpsZ(o, t) - JumpsZ(o, t + h))
    ensures JumpOutPosition(o) != -JumpFarZ ==>
      Abs(JumpsZ(o, t + h) - JumpsZ(o, t + 2.0 * h)) > Abs(JumpsZ(o, t) - JumpsZ(o, t + h))
  {
    BoundariesOrdered(o);
    var lo, hi := JumpOutBeat(o), DespawnBeat(o);
    var t1, t2 := t + h, t + 2.0 * h;
    assert t2 == t1 + h;
    var p0, p1, p2 := InverseLerp(lo, hi, t), InverseLerp(lo, hi, t1), InverseLerp(lo, hi, t2);
    StepOfInverseLerp(lo, hi, t, h);
    StepOfInverseLerp(lo, hi, t1, h);
    var span := hi - lo;
    QuotientPositive(h, span);
    RecessionShape(o, t);
    RecessionShape(o, t1);
    RecessionShape(o, t2);
    SquareSteps(p0, p1, p2);
    LerpStepsGrow(JumpOutPosition(o), -JumpFarZ, Square(p0), Square(p1), Square(p2));
  }

  lemma StepOfInverseLerp(lo: real, hi: real, t: real, h: real)
    requires lo < hi
    ensures InverseLerp(lo, hi, t + h) == InverseLerp(lo, hi, t) + h / (hi - lo)
  {
    DivSub(t + h - lo, t - lo, hi - lo);
  }

  /** Lane-plane position of the object's column and row, centred on column 1.5. */
  function Position2D(o: Object): (r: Vec2)
    ensures r.x / LaneSpacing + CenterColumn == o.data.x
    ensures r.y / LaneSpacing == o.data.y
  {
    Vec2((o.data.x - CenterColumn) * LaneSpacing, o.data.y * LaneSpacing)
  }

  /** Column 1.5 of row 0 sits at the origin, and lane order is kept on both axes. */
  lemma GridLayout(o1: Object, o2: Object)
    ensures o1.data.x == CenterColumn && o1.data.y == 0.0 ==> Position2D(o1) == Vec2(0.0, 0.0)
    ensures o1.data.x < o2.data.x <==> Position2D(o1).x < Position2D(o2).x
    ensures o1.data.y < o2.data.y <==> Position2D(o1).y < Position2D(o2).y
  {
  }

  /** Height the object dips to at the edges of its lifetime: a fixed height
      under gravity, otherwise `DipDepth` below its own row. */
  function DipStart(o: Object): real {
    if o.gravity then -DipDepth else Position2D(o).y - DipDepth
  }

  /** Lane-plane position during the jump: the column is fixed, and the height
      eases from the dip up to the row at mid-lifetime and back down. */
  function JumpsXY(o: Object, lifetime: real): (r: Vec2)
    ensures r.x == Position2D(o).x
    ensures lifetime == 0.5 ==> r.y == Position2D(o).y
    ensures lifetime == 0.0 || lifetime == 1.0 ==> r.y == DipStart(o)
    ensures 0.0 <= lifetime <= 1.0 ==> Between(r.y, DipStart(o), Position2D(o).y)
    ensures !o.gravity && 0.0 <= lifetime <= 1.0 ==>
      Position2D(o).y - DipDepth <= r.y <= Position2D(o).y
  {
    var reverseSpawnTime := 1.0 - Abs(lifetime - 0.5) * 2.0;
    var jumpTime := EaseOutQuad(reverseSpawnTime);
    var grid := Position2D(o);
    Vec2(grid.x, Lerp(DipStart(o), grid.y, jumpTime))
  }

  /** The dip is symmetric about mid-lifetime. */
  lemma JumpsXYSymmetric(o: Object, lifetime: real)
    ensures JumpsXY(o, lifetime) == JumpsXY(o, 1.0 - lifetime)
  {
    assert Abs(lifetime - 0.5) == Abs(1.0 - lifetime - 0.5);
  }

  /** Over the first half of the lifetime the height only rises towards the row:
      a later height lies between an earlier one and the row. */
  lemma JumpsXYRises(o: Object, l1: real, l2: real)
    requires 0.0 <= l1 <= l2 <= 0.5
    ensures Between(JumpsXY(o, l2).y, JumpsXY(o, l1).y, Position2D(o).y)
  {
    var r1, r2 := 1.0 - Abs(l1 - 0.5) * 2.0, 1.0 - Abs(l2 - 0.5) * 2.0;
    assert 0.0 <= r1 <= r2 <= 1.0;
    EaseOutQuadMonotone(r1, r2);
    LerpAdvances(DipStart(o), Position2D(o).y, EaseOutQuad(r1), EaseOutQuad(r2));
  }

  /** Position of the object at `time`, with `lifetime` the caller's progress value. */
  function JumpsPosition(o: Object, lifetime: real, time: real): Vec3
    requires o.Valid()
  {
    var xy := JumpsXY(o, lifetime);
    Vec3(xy.x, xy.y, JumpsZ(o, time))
  }

  /** On its beat the object is exactly on its lane and row at depth 0. */
  lemma ArrivesOnBeat(o: Object)
    requires o.Valid()
    ensures JumpsPosition(o, Lifetime(o, o.data.beat), o.data.beat)
         == Vec3(Position2D(o).x, Position2D(o).y, 0.0)
  {
    LifetimeAtBeat(o);
    BoundariesOrdered(o);
    var hd, jd := o.jumps.halfDuration, o.jumps.jumpDistance;
    var p := InverseLerp(SpawnBeat(o), JumpOutBeat(o), o.data.beat);
    var w, q := 1.5 * hd, 2.0 / 3.0;
    assert p == hd / w;
    QuotientOf(hd, w, q);
    assert JumpsZ(o, o.data.beat) == Lerp(SpawnPosition(o), JumpOutPosition(o), p);
  }

  /** At the spawn beat the object is at its spawn depth, at the bottom of the dip. */
  lemma PositionAtSpawn(o: Object)
    requires o.Valid()
    ensures JumpsPosition(o, Lifetime(o, SpawnBeat(o)), SpawnBeat(o))
         == Vec3(Position2D(o).x, DipStart(o), SpawnPosition(o))
  {
  }

  /** Orientation blend for spawn progress `spawnLifetime`: the base rotation
      when no progress has been made, otherwise the eased blend from the spawn
      rotation to the base rotation over the first `RotationSettle` of it. */
  function JumpsRotation(o: Object, spawnLifetime: real): (r: RotationBlend)
    ensures r.Exactly? <==> spawnLifetime == 0.0
    ensures r.Exactly? ==> r.q == o.baseRotation
    ensures r.Slerp? ==> r.from == o.spawnRotation && r.to == o.baseRotation && 0.0 <= r.t <= 1.0
    ensures spawnLifetime >= RotationSettle ==> Resolves(r, o.baseRotation)
    ensures spawnLifetime > 0.0 ==> r.t > 0.0
    ensures spawnLifetime < 0.0 ==> r.t == 0.0
  {
    var rotationLifetime := Clamp01(spawnLifetime / RotationSettle);
    if spawnLifetime == 0.0 then
      Exactly(o.baseRotation)
    else
      Slerp(o.spawnRotation, o.baseRotation, EaseOutQuad(rotationLifetime))
  }

  /** Once blending has begun, it only moves on towards the base rotation. */
  lemma JumpsRotationMonotone(o: Object, s1: real, s2: real)
    requires 0.0 < s1 <= s2
    ensures JumpsRotation(o, s1).t <= JumpsRotation(o, s2).t
  {
    DivMonotone(s1, s2, RotationSettle);
    var c1, c2 := Clamp01(s1 / RotationSettle), Clamp01(s2 / RotationSettle);
    Clamp01Monotone(s1 / RotationSettle, s2 / RotationSettle);
    EaseOutQuadMonotone(c1, c2);
  }

  /** The orientation chosen by the spawn placement for progress `lifetime`:
      the jump blend in the first half of the lifetime, the base rotation after. */
  function SpawnRotation(o: Object, lifetime: real): RotationBlend {
    if lifetime < 0.5 then JumpsRotation(o, SpawnLifetime(lifetime)) else Exactly(o.baseRotation)
  }

  /** The spawn rotation is shown only between the spawn beat and 15% of the
      lifetime: before spawning the object carries its base rotation, and from
      15% on it has settled onto it. */
  lemma SpawnRotationWindow(o: Object, t: real)
    requires o.Valid()
    ensures t <= SpawnBeat(o) ==> SpawnRotation(o, Lifetime(o, t)) == Exactly(o.baseRotation)
    ensures Lifetime(o, t) >= 0.15 ==> Resolves(SpawnRotation(o, Lifetime(o, t)), o.baseRotation)
    ensures SpawnBeat(o) < t < o.data.beat ==>
      SpawnRotation(o, Lifetime(o, t)).Slerp? && SpawnRotation(o, Lifetime(o, t)).t > 0.0
  {
    if SpawnBeat(o) < t < o.data.beat {
      LifetimeStartsAtSpawn(o, t);
      LifetimeBeforeBeat(o, t);
    }
  }

  /** Before the target beat the lifetime is under one half. */
  lemma LifetimeBeforeBeat(o: Object, t: real)
    requires o.Valid()
    requires t < o.data.beat
    ensures Lifetime(o, t) < 0.5
  {
    BoundariesOrdered(o);
    var lo, hi := SpawnBeat(o), DespawnBeat(o);
    var n1, n2, w := t - lo, o.data.beat - lo, hi - lo;
    StrictDivMonotone(n1, n2, w);
    QuotientOf(n2, w, 0.5);
  }

  /** Strictly after the spawn beat the lifetime is positive. */
  lemma LifetimeStartsAtSpawn(o: Object, t: real)
    requires o.Valid()
    requires SpawnBeat(o) < t
    ensures Lifetime(o, t) > 0.0
  {
    BoundariesOrdered(o);
    var lo, hi := SpawnBeat(o), DespawnBeat(o);
    var n, w := t - lo, hi - lo;
    QuotientPositive(n, w);
  }
}
